=== FILE: README.md ===
# go-workflow execution engine, modelled in Dafny

This project models the execution engine of go-workflow (`workflow/workflow_run.go`).
The engine runs one job: a flat list of actions that it treats as a small instruction set.
It steps through the list with an instruction pointer, `current_index`. The `goto`,
`next` and Fail-`goto` operations rewrite that pointer in the middle of a step. A loop
stack of `for` frames handles iteration.

Each action string is resolved through token substitution, split on `;`, and its first
field is lower-cased. The engine then either:
- handles the operator itself: `for`, `next`, `end`, `error`, `print`, `goto`, `wait`/`wait-seconds`, `wait-minutes`; or
- hands the action to a registered handler, looked up by the raw action string.

When a handler returns an error, the engine applies a failure policy. The end signal
passes through first. Then continue-on-error is checked. Then the Fail directive:
`""`/`end` propagate the error, `goto;label` redirects, and anything else swallows it.
`RunJob` and `RunSubWorkflow` wrap one run and clear the run state afterwards.

Files:

- `results.dfy`: module `Results`, the `Option` and `Result` types.
- `text.dfy`: module `Text`, the string helpers:
  - `Split` and `Join` on `;` (Go's `strings.Split` / `strings.Join`);
  - `ToLower`;
  - `Atoi`, as Go's `strconv.Atoi` on a 64-bit platform: an optional sign, then digits only, and the value must fit in 64 bits;
  - `FormatInt`.

  It also proves both round trips.
- `loopstack.dfy`: module `LoopStack`, the loop stack as a sequence of frames (innermost last) with `Push`, `Peek`, `Increment` and `Pop`.
- `semantics.dfy`: module `Semantics`, the engine as pure functions over an explicit `EngineState`:
  - `RunActionSpec`, `FailPolicy` and `Goto` for `RunAction`;
  - `Step` for one pass of `executeJob`'s loop, and `Run` for the loop itself;
  - `ExecuteJobSpec`, `RunJobSpec` and `RunSubWorkflowSpec`.

  Collaborators the engine does not define are carried in `Env`.
- `workflow_run.dfy`: module `WorkflowRun`, class `Workflow`. It has the engine's fields (`currentJob`, `currentIndex`, `model`, `stack`) and imperative methods that update them in place. Each method is proved to return, and leave behind, exactly what its specification function prescribes. `RunActions` holds `executeJob`'s `while` loop; its invariant ties the loop to `Run`.
- `properties.dfy`: module `Properties`, what the engine guarantees, as lemmas over the specification functions.

The engine's collaborators are parameters (`Semantics.Env`):

- Token resolution (`ParseToken`, `GetTokenBool`) is a pair of total functions that may fail.
- The registry `ActionList` is a set of names.
- A handler's result is a function of the action and of `trace`, the actions handed to a registered handler so far, in call order. `trace` is an engine field that only the model has; it records which handler ran when.
- `MapValuesToInput`, `InitFunc` and `CleanFunc` are supplied results.
- `Manifest.GetJob` is a map lookup.
- `Job.GetKeyIndex` is the first address whose key equals the label, else -1.

Go's `error` results are `Semantics.Outcome`: `Ok` (nil), `EndWorkflow` (the `ErrEndWorkflow` sentinel), `Err(msg)` with the source's own messages, or `Panic(msg)` for the places where the source indexes past the end of the split fields.

The model follows the code as written, including these quirks:

- `for` checks only for fewer than 2 fields but then reads fields 2 and 3 (`workflow/workflow_run.go:166-176`). With 2 fields, or 3 fields whose third is an integer, the source panics. The model returns `Panic`. With 3 fields whose third is not an integer, the model returns the "value should be an int" error, as the code does.
- `error` and `print` read field 1 without a length check (`workflow/workflow_run.go:262-264`). Without it they panic.
- `for` has no bounds check of its own. The instruction after a `for` therefore always runs at least once, even when `from > to` (`Properties.ForOpensFrame`).
- The frame records the address of the `for` itself. A `next` that does not finish therefore resumes at that `for`, not at the instruction after it (`Properties.NextClosesOrRewinds`).
- `RunJob` does not clear the run state when `CleanFunc` fails. The clean hook's error replaces the run's own result, success or failure (`Properties.RunJobResult`).
- `InitFunc` also runs for sub-workflow calls, because `executeJob` calls it for both kinds of run (`Properties.HookFailureStopsRun`).
- A Fail directive other than `""`, `end` and `goto` swallows the handler's error.
- Registered handlers are looked up by the raw, unresolved `Action` string, not by the lower-cased operator. A miss is a silent no-op that returns nil (`Properties.UnregisteredIsNoOp`).

## Model

| member | source | states |
|---|---|---|
| `Text.Split` | workflow/workflow_run.go:236 | splitting on `;` always yields at least one field, and no field contains `;` |
| `Text.JoinSplit` | workflow/workflow_run.go:236 | joining the fields of any string with `;` gives back that string |
| `Text.SplitJoin` | workflow/workflow_run.go:236 | splitting the `;`-join of a non-empty list of separator-free fields gives back that list |
| `Text.ToLower` | workflow/workflow_run.go:237 | lower-casing keeps the length and maps each character through `LowerChar` |
| `Text.ToLowerIdempotent` | workflow/workflow_run.go:237 | lower-casing is idempotent and neither adds nor removes a `;` |
| `Text.Atoi` | workflow/workflow_run.go:169-176 | a parsed integer is within Go's 64-bit range, comes from an optional sign followed by one or more digits, and is negative only after a leading `-` |
| `Text.AtoiFormatInt` | workflow/workflow_run.go:169-182 | for every 64-bit integer, `Atoi` of its `FormatInt` rendering gives back that integer |
| `Text.AtoiRendering` | workflow/workflow_run.go:169-176 | `Atoi` accepts every in-range integer written with an optional sign that fits its sign, any number of leading zeros and its digits, and returns that integer |
| `Text.AtoiOnlyRenderings` | workflow/workflow_run.go:169-176 | every string `Atoi` accepts is an optional sign matching the result's sign, then leading zeros, then the result's digits |
| `LoopStack.Push` | workflow/workflow_run.go:177 | push appends one innermost frame with `CurrentValue = from`, recording the address it was given, and keeps every older frame |
| `LoopStack.Peek` | workflow/workflow_run.go:186-189 | peek fails exactly on an empty stack, and otherwise returns the innermost frame |
| `LoopStack.Increment` | workflow/workflow_run.go:194-197 | increment fails exactly on an empty stack; otherwise it adds one to the innermost counter only, and reports finished exactly when the new value exceeds `to` |
| `LoopStack.Pop` | workflow/workflow_run.go:201 | pop fails exactly on an empty stack; otherwise the innermost frame plus the rest rebuild the stack |
| `LoopStack.PopPush` | workflow/workflow_run.go:177-201 | peek or pop right after a push returns the pushed frame, and pop restores the earlier stack |
| `LoopStack.IncrementPasses` | workflow/workflow_run.go:194-204 | a frame reports finished on the first increment exactly when it has one pass left, and each unfinished increment uses up one pass |
| `Semantics.SplitActionParams` | workflow/workflow_run.go:228-239 | fails exactly when token resolution fails, and otherwise yields at least one field |
| `Semantics.GetKeyIndex` | workflow/workflow_run.go:275-279 | returns -1 exactly when no action has the key; otherwise the first address whose key matches |
| `Semantics.Step` | workflow/workflow_run.go:128-223 | a pass that goes on never leaves the pointer negative |
| `WorkflowRun.Workflow.Goto` | workflow/workflow_run.go:268-279 | the shared `goto` code sets the pointer to one before the label, or returns the missing-argument or unknown-label error, as `Semantics.Goto` prescribes |
| `WorkflowRun.Workflow.RunAction` | workflow/workflow_run.go:241-363 | returns and leaves exactly what `RunActionSpec` prescribes: the built-ins, then the handler and its failure policy |
| `WorkflowRun.Workflow.Dispatch` | workflow/workflow_run.go:129-222 | one pass of the loop body updates the fields exactly as `Step` prescribes |
| `WorkflowRun.Workflow.ExecuteJob` | workflow/workflow_run.go:72-226 | returns and leaves exactly what `ExecuteJobSpec` prescribes, with the loop proved equal to `Run` |
| `WorkflowRun.Workflow.RunActions` | workflow/workflow_run.go:128-225 | the dispatch loop, run for at most `fuel` passes, returns and leaves exactly what `Run` prescribes |
| `WorkflowRun.Workflow.RunJob` | workflow/workflow_run.go:37-65 | returns and leaves exactly what `RunJobSpec` prescribes |
| `WorkflowRun.Workflow.RunSubWorkflow` | workflow/workflow_run.go:14-30 | returns and leaves exactly what `RunSubWorkflowSpec` prescribes |
| `Properties.SplitActionParamsFields` | workflow/workflow_run.go:228-239 | field 0 is the lower-cased first `;`-field; later fields are unchanged; no field has `;`; the join of the fields is the resolved string with only its first field lower-cased |
| `Properties.DisabledIsSkipped` | workflow/workflow_run.go:138-148 | a disabled action dispatches nothing, calls no handler, leaves the stack alone and advances the pointer by exactly one |
| `Properties.ForOpensFrame` | workflow/workflow_run.go:164-183 | `for` goes on exactly when it has four fields with integer bounds; it then pushes one frame recording its own address and continues at the next address whatever the bounds; otherwise it returns an error or panic with the stack unchanged |
| `Properties.ForShortPanics` | workflow/workflow_run.go:166-176 | a `for` with 2 fields, or 3 fields whose third is an integer, panics; with 3 fields whose third is not an integer it returns the "value should be an int" error for that field; the state is unchanged either way |
| `Properties.NextClosesOrRewinds` | workflow/workflow_run.go:184-204 | `next` on an empty stack returns the underflow error; otherwise it increments once, pops exactly the finished frame and goes on at `index+1`, or rewinds so that the next address run is the frame's recorded address |
| `Properties.GotoJumpsToLabel` | workflow/workflow_run.go:268-279 | `goto` without a label, or with an unknown one, returns an error; with a known label execution goes on at the first action carrying it, with the stack unchanged |
| `Properties.EndSignalEndsRun` | workflow/workflow_run.go:209-215 | the end signal, from `end` or from a handler, makes the run return nil at once |
| `Semantics.RunEdges` | workflow/workflow_run.go:128-225 | a pointer past the last action makes the loop return nil with the state unchanged; with the fuel bound spent it stops there |
| `Properties.StepStopsOnError` | workflow/workflow_run.go:138-218 | one pass of the loop stops with the error when the action's `Disabled` string or its `Action` string does not resolve (the model then holds the current action), and stops with whatever error other than the end signal `RunAction` returned, in the state `RunAction` left |
| `Properties.FailurePolicy` | workflow/workflow_run.go:310-362 | for a handler error: the end signal passes through, and RunAction returns nil exactly under continue-on-error, a known Fail-`goto` label, or a Fail operator other than `""`/`end`; the handler call is recorded once; only a Fail `goto` moves the pointer, and with a known label it sets it to one before that label's first address; an unresolvable Fail string returns its error, and a Fail `goto` without a label or with an unknown one returns `not enough args for goto` or `cannot find label <name>` |
| `Properties.FailGotoJumpsToLabel` | workflow/workflow_run.go:335-358 | a handler error under a Fail `goto` with a known label is swallowed, and the loop goes on at the first action carrying the label, with the stack unchanged and the handler call recorded |
| `Properties.ErrorAndPrint` | workflow/workflow_run.go:257-267 | `error` returns its message as an error and stops the run; `print` returns nil and the loop goes on at the next address; both panic without a message field, and neither changes the state |
| `Properties.UnregisteredIsNoOp` | workflow/workflow_run.go:310-316 | a non-built-in action whose raw string is not registered calls no handler, changes nothing and returns nil |
| `Properties.WaitChecksArgument` | workflow/workflow_run.go:280-309 | the wait built-ins change nothing, and fail exactly when the argument is missing or not an integer |
| `Properties.FuelIsOnlyABound` | workflow/workflow_run.go:128 | once a run has returned within some fuel, any larger fuel gives the same result and state |
| `Properties.PlainJobRunsInOrder` | workflow/workflow_run.go:128-225 | a job whose actions from the start address on are enabled, non-control actions whose handlers succeed returns nil with the pointer at the end and the stack alone, and its handler calls are exactly the registered actions from the start address on, each once, in array order |
| `Properties.NoActionBeforeJobChecks` | workflow/workflow_run.go:77-91 | an unknown job, or a sub-workflow call on a job not marked as one, returns its error with no handler call and the pointer, model and stack unchanged |
| `Properties.HookFailureStopsRun` | workflow/workflow_run.go:85-123 | after the job checks, a failing input mapping (sub-workflow calls only) and then a failing init hook (both kinds of run) are returned with only the job selected; with both hooks passing, the loop runs from address 0 with an empty stack and a fresh model |
| `Properties.SubWorkflowResets` | workflow/workflow_run.go:14-30 | `RunSubWorkflow` returns `executeJob`'s result unchanged; when the run unwound the state is exactly what `executeJob` left, otherwise job, pointer, model and stack are cleared |
| `Properties.RunJobResult` | workflow/workflow_run.go:43-64 | `RunJob` returns a failing clean hook's error and skips the reset; otherwise it clears the state and returns `executeJob`'s result |
| `Properties.RunJobDoesNotLeak` | workflow/workflow_run.go:108-123 | leftover job, pointer, model and stack from an earlier run do not change `RunJob`'s result, nor its final state whenever the clean hook succeeds, whether or not the job exists |

## Left out

- Logging, colouring and the `fmt.Println` of `print` (`lib.ActionLog`, `color`, `lib.PrintlnFail`): they are output side effects only. `FormatInt` stays in the model as the reference rendering that `Text.AtoiFormatInt` checks `Atoi` against.
- `time.Sleep` in the wait built-ins: real blocking cannot be verified. The built-ins parse their argument and then succeed.
- Token resolution internals (`ParseToken`, `GetTokenBool`, `CreateTemplateData`, `MapValuesToInput`, `lib.ConvertToBool`): their code is not part of this model. Resolution is a fixed function of the string. It ignores the data model, which handlers may change between steps. `ContinueOnError` is taken as already converted to a boolean.
- Handler bodies, `InitFunc` and `CleanFunc`: their code is not part of this model. They are supplied results: a handler's result depends on the action and on the earlier handler calls, and each hook has one fixed result. A handler that re-enters the engine (for example a sub-workflow action calling `RunSubWorkflow` on the same engine, whose reset would clear the caller's run state) is not modelled.
- The loop stack's implementation is not part of this model. The model uses only its contract, and pins the boundary rule: `Increment` adds one and reports finished when the counter exceeds `to`. Under this contract, `Push` always opens a fresh frame.
- `for` loops with `from < to` never finish in the model. A `next` that does not finish rewinds to the `for` itself (`workflow/workflow_run.go:203`), which pushes another frame starting at `from` (`workflow/workflow_run.go:177`). Every such loop therefore runs until the fuel is spent and adds one frame per pass. How the real loop stack treats a `for` it has already seen is not part of this model, so no iteration count is stated.
- `LoopStack.Push` never fails, so the error return of `Push` (`workflow/workflow_run.go:177-180`) is not modelled.
- `LoopStack.Increment`: the counter is an unbounded integer. A Go `int` counter at 2^63-1 would wrap instead.
- `Text.ToLower`: only ASCII capitals are lower-cased. Go's `strings.ToLower` also lower-cases non-ASCII letters.
- `WorkflowRun.Workflow.ExecuteJob`: the loop runs for at most `fuel` passes, because a backward `goto` or `next` can legitimately loop forever. `FuelSpent` stands for a run that has not returned yet. `Properties.FuelIsOnlyABound` shows that fuel never changes a result once one is returned.
- Go panics are modelled as the `Panic` outcome. The process itself would crash. `RunJob` and `RunSubWorkflow` pass a panic on without running the clean hook or the reset, as unwinding would.
- `errors.Is` on wrapped errors: a handler error that wraps `ErrEndWorkflow` is represented directly by `EndWorkflow`.
- Concurrency: two runs on one engine at once are outside the model, because the source forbids them.
- `actions/js/js.go`: a thin wrapper around a JavaScript VM and file reads that are not part of this model.

=== FILE: loopstack.dfy ===
/**
 * The loop stack behind `for` / `next`. Its implementation is not part of this
 * model; it is represented by the contract the engine relies on. The stack is a
 * sequence of frames whose LAST element is the innermost open loop.
 *
 * Stated assumption (the boundary rule): Increment adds one to the innermost
 * frame's counter and reports the loop finished when the new value exceeds `to`.
 */
module LoopStack {
  import opened Results

  /** One open loop: its variable, the address of the `for` that opened it, its counter and bounds. */
  datatype Frame = Frame(variableName: string, index: nat, currentValue: int, from: int, to: int)

  const EmptyStack: string := "empty stack"

  /** Opens a new innermost frame whose counter starts at `from`. */
  function Push(stack: seq<Frame>, name: string, index: nat, from: int, to: int): (r: seq<Frame>)
    ensures |r| == |stack| + 1 && r[..|stack|] == stack
    ensures r[|stack|] == Frame(name, index, from, from, to)
  {
    stack + [Frame(name, index, from, from, to)]
  }

  /** The innermost frame, left in place. */
  function Peek(stack: seq<Frame>): (r: Result<Frame>)
    ensures r.Failure? <==> |stack| == 0
    ensures r.Success? ==> r.value == stack[|stack| - 1]
  {
    if |stack| == 0 then Failure(EmptyStack) else Success(stack[|stack| - 1])
  }

  /** Advances the innermost counter by one and says whether that loop is finished. */
  function Increment(stack: seq<Frame>): (r: Result<(bool, seq<Frame>)>)
    ensures r.Failure? <==> |stack| == 0
    ensures r.Success? ==>
      var top := stack[|stack| - 1];
      var (finished, after) := r.value;
      && |after| == |stack|
      && after[..|stack| - 1] == stack[..|stack| - 1]
      && after[|stack| - 1] == top.(currentValue := top.currentValue + 1)
      && (finished <==> top.currentValue + 1 > top.to)
  {
    if |stack| == 0 then Failure(EmptyStack)
    else
      var top := stack[|stack| - 1];
      var next := top.(currentValue := top.currentValue + 1);
      Success((next.currentValue > next.to, stack[..|stack| - 1] + [next]))
  }

  /** Removes and returns the innermost frame. */
  function Pop(stack: seq<Frame>): (r: Result<(Frame, seq<Frame>)>)
    ensures r.Failure? <==> |stack| == 0
    ensures r.Success? ==> r.value.1 + [r.value.0] == stack
  {
    if |stack| == 0 then Failure(EmptyStack) else Success((stack[|stack| - 1], stack[..|stack| - 1]))
  }

  /** Popping right after a push gives back the pushed frame and the stack as it was. */
  lemma PopPush(stack: seq<Frame>, name: string, index: nat, from: int, to: int)
    ensures Pop(Push(stack, name, index, from, to)) == Success((Frame(name, index, from, from, to), stack))
    ensures Peek(Push(stack, name, index, from, to)) == Success(Frame(name, index, from, from, to))
  {
  }

  /**
   * The number of Increments a freshly pushed frame takes to report finished:
   * `to - currentValue + 1` when the bounds are ordered, and one when they are not.
   */
  function Passes(f: Frame): (n: nat)
    ensures n >= 1
  {
    if f.currentValue >= f.to then 1 else f.to - f.currentValue + 1
  }

  /**
   * Incrementing the innermost frame Passes - 1 times leaves it unfinished each
   * time, and the next Increment finishes it.
   */
  lemma {:induction false} IncrementPasses(stack: seq<Frame>)
    requires |stack| >= 1
    ensures var r := Increment(stack);
      r.Success? && (r.value.0 <==> Passes(stack[|stack| - 1]) == 1)
    ensures Passes(stack[|stack| - 1]) > 1 ==>
      Passes(Increment(stack).value.1[|stack| - 1]) == Passes(stack[|stack| - 1]) - 1
  {
  }
}

=== FILE: properties.dfy ===
/**
 * What the engine guarantees, stated over the specification functions of
 * module Semantics (and so, through the methods' postconditions, over class
 * WorkflowRun.Workflow).
 */
module Properties {
  import opened Results
  import opened Text
  import opened LoopStack
  import opened Semantics

  /** The action at the current address is enabled and its action string splits into `parts`. */
  predicate EnabledAt(env: Env, job: Job, s: EngineState, parts: seq<string>)
  {
    && 0 <= s.index < |job.actions|
    && env.tokenBool(job.actions[s.index].disabled) == Success(false)
    && SplitActionParams(env, job.actions[s.index].action) == Success(parts)
  }

  // ---------------------------------------------------------------------------
  // SplitActionParams
  // ---------------------------------------------------------------------------

  /**
   * The fields of a resolved action string: at least one; the first is the
   * lower-cased first ';'-field, the others are the later fields unchanged; none
   * holds a separator; and joining them gives back the resolved string with only
   * its first field lower-cased.
   */
  lemma SplitActionParamsFields(env: Env, action: string)
    requires env.parseToken(action).Success?
    ensures var resolved := env.parseToken(action).value;
      var raw := Split(resolved);
      var parts := SplitActionParams(env, action).value;
      && |parts| == |raw| >= 1
      && parts[0] == ToLower(raw[0])
      && parts[1..] == raw[1..]
      && (forall i :: 0 <= i < |parts| ==> Sep !in parts[i])
      && |raw[0]| <= |resolved| && resolved[..|raw[0]|] == raw[0]
      && Join(parts) == ToLower(resolved[..|raw[0]|]) + resolved[|raw[0]|..]
  {
    var resolved := env.parseToken(action).value;
    var raw := Split(resolved);
    var parts := SplitActionParams(env, action).value;
    var tail := raw[1..];
    ToLowerIdempotent(raw[0]);
    assert parts == [ToLower(raw[0])] + tail;
    assert raw == [raw[0]] + tail;
    var rest := if |tail| == 0 then "" else [Sep] + Join(tail);
    JoinSplit(resolved);
    JoinFirst(raw[0], tail);
    JoinFirst(ToLower(raw[0]), tail);
    assert resolved == raw[0] + rest;
    assert resolved[..|raw[0]|] == raw[0];
    assert resolved[|raw[0]|..] == rest;
    forall i | 0 <= i < |parts|
      ensures Sep !in parts[i]
    {
      if i > 0 {
        assert parts[i] == raw[i];
      }
    }
  }

  // ---------------------------------------------------------------------------
  // One pass of the dispatch loop
  // ---------------------------------------------------------------------------

  /**
   * A disabled action is skipped: no dispatch, no handler call, no change to the
   * loop stack, and the pointer moves on by exactly one.
   */
  lemma DisabledIsSkipped(env: Env, job: Job, s: EngineState)
    requires 0 <= s.index < |job.actions|
    requires env.tokenBool(job.actions[s.index].disabled) == Success(true)
    ensures var sig := Step(env, job, s);
      && sig.Continue?
      && sig.s.index == s.index + 1
      && sig.s.stack == s.stack && sig.s.trace == s.trace && sig.s.job == s.job
  {
  }

  /**
   * `for;<var>;<from>;<to>` opens one frame recording its own address and moves
   * on to the next instruction whatever the bounds, so a loop body always runs
   * at least once. Too few fields, or a bound that is not an integer, returns.
   */
  lemma ForOpensFrame(env: Env, job: Job, s: EngineState, parts: seq<string>)
    requires EnabledAt(env, job, s, parts) && parts[0] == "for"
    ensures var sig := Step(env, job, s);
      && (|parts| < 2 ==> sig.Stop? && sig.out == Err("not enough args for loop"))
      && (sig.Continue? <==> |parts| >= 4 && Atoi(parts[2]).Some? && Atoi(parts[3]).Some?)
      && (sig.Stop? ==> sig.out.Err? || sig.out.Panic?)
      && (sig.Stop? ==> sig.s.stack == s.stack && sig.s.index == s.index)
      && (sig.Continue? ==>
            && sig.s.index == s.index + 1
            && sig.s.trace == s.trace
            && sig.s.stack == s.stack + [Frame(parts[1], s.index, Atoi(parts[2]).value,
                                               Atoi(parts[2]).value, Atoi(parts[3]).value)])
  {
  }

  /**
   * With two or three fields a `for` never opens a frame. The source reads the
   * missing field and panics, except that a non-integer third field is reported
   * as an error before the fourth is read.
   */
  lemma ForShortPanics(env: Env, job: Job, s: EngineState, parts: seq<string>)
    requires EnabledAt(env, job, s, parts) && parts[0] == "for"
    requires 2 <= |parts| < 4
    ensures var sig := Step(env, job, s);
      var here := s.(model := Some(TemplateData(Some(job.actions[s.index]))));
      && ((|parts| == 2 || Atoi(parts[2]).Some?) ==> sig == Stop(Panic(IndexOutOfRange), here))
      && ((|parts| == 3 && Atoi(parts[2]).None?) ==>
            sig == Stop(Err("value should be an int for loop " + parts[2]), here))
  {
  }

  /**
   * `next` with no open loop returns the underflow error. With an open frame it
   * advances that frame's counter once; a finished frame is popped (and only it)
   * and execution goes on at the next address; otherwise the pointer is rewound
   * so that the next address executed is the one the frame recorded.
   */
  lemma NextClosesOrRewinds(env: Env, job: Job, s: EngineState, parts: seq<string>)
    requires EnabledAt(env, job, s, parts) && parts[0] == "next"
    ensures var sig := Step(env, job, s);
      && (|s.stack| == 0 ==> sig.Stop? && sig.out == Err(EmptyStack) && sig.s.stack == s.stack)
      && (|s.stack| > 0 ==>
            var n := |s.stack|;
            var top := s.stack[n - 1];
            && sig.Continue?
            && sig.s.trace == s.trace
            && (top.currentValue + 1 > top.to ==>
                  sig.s.stack == s.stack[..n - 1] && sig.s.index == s.index + 1)
            && (top.currentValue + 1 <= top.to ==>
                  && sig.s.stack == s.stack[..n - 1] + [top.(currentValue := top.currentValue + 1)]
                  && sig.s.index == top.index))
  {
    if |s.stack| > 0 {
      var n := |s.stack|;
      var (finished, after) := Increment(s.stack).value;
      assert after[..n - 1] == s.stack[..n - 1];
      if finished {
        var popped := Pop(after);
        assert popped.value.1 == after[..n - 1];
      } else {
        assert after == after[..n - 1] + [after[n - 1]];
      }
    }
  }

  /**
   * `goto;<label>`: with no label, or a label no action carries, it returns an
   * error; otherwise execution goes on at the first action whose key is the
   * label, with the loop stack untouched.
   */
  lemma GotoJumpsToLabel(env: Env, job: Job, s: EngineState, parts: seq<string>)
    requires EnabledAt(env, job, s, parts) && parts[0] == "goto"
    ensures var sig := Step(env, job, s);
      && (|parts| < 2 ==> sig.Stop? && sig.out == Err("not enough args for goto"))
      && (|parts| >= 2 && (forall i :: 0 <= i < |job.actions| ==> job.actions[i].key != parts[1]) ==>
            sig.Stop? && sig.out == Err("cannot find label " + parts[1]))
      && (sig.Continue? ==>
            && |parts| >= 2
            && 0 <= sig.s.index < |job.actions|
            && job.actions[sig.s.index].key == parts[1]
            && (forall i :: 0 <= i < sig.s.index ==> job.actions[i].key != parts[1])
            && sig.s.stack == s.stack && sig.s.trace == s.trace)
      && (|parts| >= 2 && (exists i :: 0 <= i < |job.actions| && job.actions[i].key == parts[1]) ==>
            sig.Continue?)
  {
  }

  /**
   * The end signal, from the `end` built-in or from a registered handler, makes
   * the run return nil at once, whatever instructions remain.
   */
  lemma EndSignalEndsRun(env: Env, job: Job, s: EngineState, parts: seq<string>, fuel: nat)
    requires EnabledAt(env, job, s, parts)
    requires parts[0] == "end"
      || (parts[0] !in BuiltIns && parts[0] != "for" && parts[0] != "next"
          && job.actions[s.index].action in env.actionList
          && env.handler(job.actions[s.index], s.trace) == EndWorkflow)
    ensures Run(env, job, s, fuel + 1).0 == Returned(Ok)
  {
  }

  // ---------------------------------------------------------------------------
  // RunAction
  // ---------------------------------------------------------------------------

  /**
   * The failure policy around a registered handler that returned an error:
   * the end signal always passes through; RunAction returns nil exactly when
   * continue-on-error is set or the Fail directive resolves to something other
   * than "" and "end" (a `goto` needing a known label); the handler ran once;
   * and the pointer moves only for a Fail `goto`, to one before its label.
   */
  lemma FailurePolicy(env: Env, job: Job, a: Action, s: EngineState, parts: seq<string>)
    requires SplitActionParams(env, a.action) == Success(parts)
    requires parts[0] !in BuiltIns && a.action in env.actionList
    requires env.handler(a, s.trace) != Ok
    ensures var err := env.handler(a, s.trace);
      var r := RunActionSpec(env, job, a, s);
      var fail := SplitActionParams(env, a.fail);
      && r.1.trace == s.trace + [a]
      && (r.0 == EndWorkflow <==> err == EndWorkflow)
      && (r.0 == Ok <==>
            && err != EndWorkflow
            && (|| a.continueOnError
                || (&& fail.Success?
                    && fail.value[0] != "end" && fail.value[0] != ""
                    && (fail.value[0] == "goto" ==>
                          |fail.value| >= 2 && GetKeyIndex(job.actions, fail.value[1]) != -1))))
      && ((&& err != EndWorkflow && !a.continueOnError && fail.Success?
           && (fail.value[0] == "end" || fail.value[0] == "")) ==> r.0 == err)
      && (err != EndWorkflow && !a.continueOnError && fail.Failure? ==> r.0 == Err(fail.msg))
      && ((&& err != EndWorkflow && !a.continueOnError && fail.Success? && fail.value[0] == "goto"
           && |fail.value| < 2) ==> r.0 == Err("not enough args for goto"))
      && ((&& err != EndWorkflow && !a.continueOnError && fail.Success? && fail.value[0] == "goto"
           && |fail.value| >= 2 && GetKeyIndex(job.actions, fail.value[1]) == -1) ==>
            r.0 == Err("cannot find label " + fail.value[1]))
      && (r.1.index != s.index ==>
            && err != EndWorkflow && !a.continueOnError && fail.Success? && fail.value[0] == "goto"
            && |fail.value| >= 2 && job.actions[r.1.index + 1].key == fail.value[1])
      && ((&& err != EndWorkflow && !a.continueOnError && fail.Success? && fail.value[0] == "goto"
           && |fail.value| >= 2 && GetKeyIndex(job.actions, fail.value[1]) != -1) ==>
            r.1.index == GetKeyIndex(job.actions, fail.value[1]) - 1)
      && r.1.stack == s.stack
  {
  }

  /**
   * The loop's own error exits: a `Disabled` or `Action` string that does not
   * resolve, and any RunAction error other than the end signal, stop the pass
   * with that error, leaving the state RunAction left.
   */
  lemma StepStopsOnError(env: Env, job: Job, s: EngineState)
    requires 0 <= s.index < |job.actions|
    ensures var a := job.actions[s.index];
      var here := s.(model := Some(TemplateData(Some(a))));
      var sig := Step(env, job, s);
      && (env.tokenBool(a.disabled).Failure? ==> sig == Stop(Err(env.tokenBool(a.disabled).msg), here))
      && (env.tokenBool(a.disabled) == Success(false) && env.parseToken(a.action).Failure? ==>
            sig == Stop(Err(env.parseToken(a.action).msg), here))
      && ((&& env.tokenBool(a.disabled) == Success(false)
           && SplitActionParams(env, a.action).Success?
           && SplitActionParams(env, a.action).value[0] != "for"
           && SplitActionParams(env, a.action).value[0] != "next") ==>
            var r := RunActionSpec(env, job, a, here);
            r.0 != Ok && r.0 != EndWorkflow ==> sig == Stop(r.0, r.1))
  {
  }

  /**
   * A Fail `goto` with a known label, seen from the loop: the handler's error is
   * swallowed and execution goes on at the first action carrying the label, with
   * the loop stack untouched and the handler call recorded.
   */
  lemma FailGotoJumpsToLabel(env: Env, job: Job, s: EngineState, parts: seq<string>, fail: seq<string>)
    requires EnabledAt(env, job, s, parts)
    requires parts[0] !in BuiltIns && parts[0] != "for" && parts[0] != "next"
    requires job.actions[s.index].action in env.actionList
    requires env.handler(job.actions[s.index], s.trace) != Ok
    requires env.handler(job.actions[s.index], s.trace) != EndWorkflow
    requires !job.actions[s.index].continueOnError
    requires SplitActionParams(env, job.actions[s.index].fail) == Success(fail)
    requires fail[0] == "goto" && |fail| >= 2 && GetKeyIndex(job.actions, fail[1]) != -1
    ensures var sig := Step(env, job, s);
      && sig.Continue?
      && sig.s.index == GetKeyIndex(job.actions, fail[1])
      && job.actions[sig.s.index].key == fail[1]
      && (forall i :: 0 <= i < sig.s.index ==> job.actions[i].key != fail[1])
      && sig.s.stack == s.stack
      && sig.s.trace == s.trace + [job.actions[s.index]]
  {
  }

  /**
   * `error;<msg>` returns the message as an error and `print;<msg>` returns nil;
   * both change nothing. Without the message field both panic, as the source
   * reads field 1 unchecked. Seen from the loop, `error` stops the run with its
   * error and `print` goes on at the next address.
   */
  lemma ErrorAndPrint(env: Env, job: Job, s: EngineState, parts: seq<string>)
    requires EnabledAt(env, job, s, parts) && (parts[0] == "error" || parts[0] == "print")
    ensures var a := job.actions[s.index];
      var here := s.(model := Some(TemplateData(Some(a))));
      var r := RunActionSpec(env, job, a, here);
      var sig := Step(env, job, s);
      && r.1 == here
      && (|parts| < 2 ==> r.0 == Panic(IndexOutOfRange) && sig == Stop(Panic(IndexOutOfRange), here))
      && (|parts| >= 2 && parts[0] == "error" ==> r.0 == Err(parts[1]) && sig == Stop(Err(parts[1]), here))
      && (|parts| >= 2 && parts[0] == "print" ==> r.0 == Ok && sig == Continue(Advance(here)))
  {
  }

  /**
   * An action whose operator is not a built-in and whose raw action string is
   * not registered calls no handler and returns nil, changing nothing.
   */
  lemma UnregisteredIsNoOp(env: Env, job: Job, a: Action, s: EngineState, parts: seq<string>)
    requires SplitActionParams(env, a.action) == Success(parts)
    requires parts[0] !in BuiltIns && a.action !in env.actionList
    ensures RunActionSpec(env, job, a, s) == (Ok, s)
  {
  }

  /**
   * The wait built-ins change nothing and fail exactly when the argument is
   * missing or is not an integer.
   */
  lemma WaitChecksArgument(env: Env, job: Job, a: Action, s: EngineState, parts: seq<string>)
    requires SplitActionParams(env, a.action) == Success(parts)
    requires parts[0] in {"wait", "wait-seconds", "wait-minutes"}
    ensures var r := RunActionSpec(env, job, a, s);
      && r.1 == s
      && (r.0.Err? <==> |parts| < 2 || Atoi(parts[1]).None?)
      && (!r.0.Err? ==> r.0 == Ok)
  {
  }

  // ---------------------------------------------------------------------------
  // The whole loop
  // ---------------------------------------------------------------------------

  /** More fuel never changes a run that has already returned. */
  lemma {:induction false} FuelIsOnlyABound(env: Env, job: Job, s: EngineState, fuel: nat, more: nat)
    requires s.index >= 0
    requires Run(env, job, s, fuel).0.Returned?
    requires fuel <= more
    ensures Run(env, job, s, more) == Run(env, job, s, fuel)
    decreases fuel
  {
    if s.index < |job.actions| && fuel > 0 {
      match Step(env, job, s)
      case Stop(_, _) =>
      case Continue(s') => FuelIsOnlyABound(env, job, s', fuel - 1, more - 1);
    }
  }

  /**
   * An action that neither changes control flow nor fails: enabled, its operator
   * neither a built-in nor `for`/`next`, and a registered handler that always
   * returns nil.
   */
  ghost predicate Plain(env: Env, a: Action)
  {
    && env.tokenBool(a.disabled) == Success(false)
    && env.parseToken(a.action).Success?
    && (var op := SplitActionParams(env, a.action).value[0];
        op !in BuiltIns && op != "for" && op != "next")
    && (a.action in env.actionList ==> forall t: seq<Action> :: env.handler(a, t) == Ok)
  }

  /** Every action of `actions` is plain. */
  ghost predicate AllPlain(env: Env, actions: seq<Action>)
  {
    |actions| > 0 ==> Plain(env, actions[0]) && AllPlain(env, actions[1..])
  }

  /** The actions of `actions` whose raw action string is registered, in order. */
  function Registered(env: Env, actions: seq<Action>): (r: seq<Action>)
    ensures |r| <= |actions|
  {
    if |actions| == 0 then []
    else (if actions[0].action in env.actionList then [actions[0]] else []) + Registered(env, actions[1..])
  }

  /**
   * A job made only of plain actions runs each of them once, in order, from the
   * current address to the end: it returns nil with the pointer at the end, the
   * loop stack untouched, and the handler calls are exactly the registered
   * actions from that address on, in array order.
   */
  lemma {:induction false} PlainJobRunsInOrder(env: Env, job: Job, s: EngineState, fuel: nat)
    requires 0 <= s.index <= |job.actions|
    requires AllPlain(env, job.actions[s.index..])
    requires fuel >= |job.actions| - s.index
    ensures var (r, s') := Run(env, job, s, fuel);
      && r == Returned(Ok)
      && s'.index == |job.actions|
      && s'.stack == s.stack
      && s'.trace == s.trace + Registered(env, job.actions[s.index..])
    decreases |job.actions| - s.index
  {
    if s.index < |job.actions| {
      var rest := job.actions[s.index..];
      var later := job.actions[s.index + 1..];
      assert rest[0] == job.actions[s.index] && rest[1..] == later;
      var next, called := PlainPass(env, job, s, fuel);
      PlainJobRunsInOrder(env, job, next, fuel - 1);
      RegisteredCons(env, rest, called, s.trace);
      assert Run(env, job, s, fuel).1.trace == s.trace + Registered(env, rest);
    } else {
      RunEdges(env, job, s, fuel);
      assert job.actions[s.index..] == [];
    }
  }

  /**
   * Registered actions of a non-empty list, appended to an earlier trace: the
   * head's contribution, then the rest's.
   */
  lemma RegisteredCons(env: Env, actions: seq<Action>, head: seq<Action>, before: seq<Action>)
    requires |actions| > 0
    requires head == (if actions[0].action in env.actionList then [actions[0]] else [])
    ensures before + head + Registered(env, actions[1..]) == before + Registered(env, actions)
  {
  }

  /**
   * One pass over a plain action: the run goes on from a state whose pointer has
   * moved on by one, and only the handler call is recorded.
   */
  lemma PlainPass(env: Env, job: Job, s: EngineState, fuel: nat) returns (next: EngineState, called: seq<Action>)
    requires 0 <= s.index < |job.actions| && fuel > 0
    requires Plain(env, job.actions[s.index])
    ensures called == (if job.actions[s.index].action in env.actionList then [job.actions[s.index]] else [])
    ensures next.index == s.index + 1 && next.stack == s.stack && next.trace == s.trace + called
    ensures Run(env, job, s, fuel) == Run(env, job, next, fuel - 1)
  {
    var a := job.actions[s.index];
    called := if a.action in env.actionList then [a] else [];
    var sig := Step(env, job, s);
    assert sig.Continue?;
    next := sig.s;
    RunUnfold(env, job, s, fuel);
  }


  // ---------------------------------------------------------------------------
  // executeJob, RunJob, RunSubWorkflow
  // ---------------------------------------------------------------------------

  /**
   * An unknown job key, or a sub-workflow call on a job not marked as one,
   * returns an error before any action runs: no handler call, and the pointer,
   * model and loop stack as they were.
   */
  lemma NoActionBeforeJobChecks(env: Env, manifest: map<string, Job>, s: EngineState, key: string,
                                subProcess: bool, inputs: map<string, string>, fuel: nat)
    requires key !in manifest || (subProcess && !manifest[key].isSubWorkflow)
    ensures var (r, s') := ExecuteJobSpec(env, manifest, s, key, subProcess, inputs, fuel);
      && r.Returned? && r.err.Err?
      && (key !in manifest ==> r.err == Err("cannot find job " + key) && s'.job.None?)
      && (key in manifest ==> r.err == Err(NotSubWorkflow(key)) && s'.job == Some(manifest[key]))
      && s'.index == s.index && s'.model == s.model && s'.stack == s.stack && s'.trace == s.trace
  {
  }

  /**
   * Once the job checks pass, executeJob's hooks run in order: a failing input
   * mapping (sub-workflow calls only) is returned, then a failing init hook is
   * returned, for both kinds of run; the state then holds only the selected job.
   * When both hooks succeed, the loop runs from address 0 with an empty loop
   * stack and a fresh model.
   */
  lemma HookFailureStopsRun(env: Env, manifest: map<string, Job>, s: EngineState, key: string,
                            subProcess: bool, inputs: map<string, string>, fuel: nat)
    requires key in manifest && (!subProcess || manifest[key].isSubWorkflow)
    ensures var job := manifest[key];
      var selected := s.(job := Some(job));
      var mapped := !subProcess || env.mapValuesToInput(inputs) == Ok;
      var initialised := env.initFunc.None? || env.initFunc.value == Ok;
      var out := ExecuteJobSpec(env, manifest, s, key, subProcess, inputs, fuel);
      && (!mapped ==> out == (Returned(env.mapValuesToInput(inputs)), selected))
      && (mapped && !initialised ==> out == (Returned(env.initFunc.value), selected))
      && (mapped && initialised ==>
            out == Run(env, job, selected.(stack := [], model := Some(TemplateData(None)), index := 0), fuel))
  {
  }

  /**
   * RunSubWorkflow returns executeJob's result unchanged and, unless the run
   * unwound, always leaves the run state cleared.
   */
  lemma SubWorkflowResets(env: Env, manifest: map<string, Job>, s: EngineState, key: string,
                          inputs: map<string, string>, fuel: nat)
    ensures var (r, s') := RunSubWorkflowSpec(env, manifest, s, key, inputs, fuel);
      var (e, t) := ExecuteJobSpec(env, manifest, s, key, true, inputs, fuel);
      && r == e
      && (Unwound(r) ==> s' == t)
      && (!Unwound(r) ==> s'.job.None? && s'.index == 0 && s'.model.None? && s'.stack == [])
  {
  }

  /**
   * RunJob: a failing clean hook's error is returned and the reset skipped;
   * otherwise the state is cleared and executeJob's result returned.
   */
  lemma RunJobResult(env: Env, manifest: map<string, Job>, s: EngineState, key: string, fuel: nat)
    ensures var (r, s') := RunJobSpec(env, manifest, s, key, fuel);
      var (e, t) := ExecuteJobSpec(env, manifest, s, key, false, map[], fuel);
      && (Unwound(e) ==> r == e && s' == t)
      && (!Unwound(e) && env.cleanFunc.Some? && env.cleanFunc.value != Ok ==>
            r == Returned(env.cleanFunc.value) && s' == t)
      && (!Unwound(e) && (env.cleanFunc.None? || env.cleanFunc.value == Ok) ==>
            r == e && s'.job.None? && s'.index == 0 && s'.model.None? && s'.stack == [])
  {
  }

  /**
   * Nothing of an earlier run leaks into the next: two engines that differ only
   * in leftover pointer, model, job and loop stack get the same result from
   * RunJob, and end in the same state whenever the run state is cleared.
   */
  lemma RunJobDoesNotLeak(env: Env, manifest: map<string, Job>, s1: EngineState, s2: EngineState,
                          key: string, fuel: nat)
    requires s1.trace == s2.trace
    ensures RunJobSpec(env, manifest, s1, key, fuel).0 == RunJobSpec(env, manifest, s2, key, fuel).0
    ensures env.cleanFunc.None? || env.cleanFunc.value == Ok ==>
      RunJobSpec(env, manifest, s1, key, fuel).1 == RunJobSpec(env, manifest, s2, key, fuel).1
  {
    if key in manifest {
      var job := manifest[key];
      var t1 := s1.(job := Some(job));
      var t2 := s2.(job := Some(job));
      var start1 := t1.(stack := [], model := Some(TemplateData(None)), index := 0);
      var start2 := t2.(stack := [], model := Some(TemplateData(None)), index := 0);
      assert start1 == start2;
    }
  }
}

=== FILE: results.dfy ===
/** Optional values and fallible results, used wherever the engine can fail. */
module Results {

  datatype Option<T> = None | Some(value: T)

  /** A value, or the message of the error that stood in its place. */
  datatype Result<T> = Success(value: T) | Failure(msg: string)
}

=== FILE: semantics.dfy ===
/**
 * The execution engine of workflow/workflow_run.go as pure functions over an
 * explicit engine state. Each function here specifies one imperative method of
 * class WorkflowRun.Workflow; module Properties states what they guarantee.
 *
 * Collaborators the engine calls but does not define are carried by `Env`:
 * token resolution, the registered action handlers and their results, the
 * input-mapping step of a sub-workflow call and the init / clean hooks.
 */
module Semantics {
  import opened Results
  import opened Text
  import opened LoopStack

  /** One instruction of a job. `continueOnError` is the flag already converted to a boolean. */
  datatype Action = Action(key: string, action: string, disabled: string, fail: string, continueOnError: bool)

  datatype Job = Job(key: string, isSubWorkflow: bool, actions: seq<Action>)

  /**
   * What an operation hands back in place of Go's `error`: nil, the
   * ErrEndWorkflow sentinel, any other error, or a run-time panic (an index out
   * of range), which unwinds every caller.
   */
  datatype Outcome = Ok | EndWorkflow | Err(msg: string) | Panic(msg: string)

  /** An `error` value proper: what handlers and hooks may return. */
  type Status = o: Outcome | !o.Panic? witness Ok

  const IndexOutOfRange: string := "index out of range"

  /** The template model that token resolution sees; it carries the current action. */
  datatype TemplateData = TemplateData(action: Option<Action>)

  /**
   * The engine's run state: current job, instruction pointer, model, loop stack,
   * and `trace`, the actions handed to a registered handler so far, in call
   * order (the history a handler may base its result on).
   */
  datatype EngineState = EngineState(
    job: Option<Job>, index: int, model: Option<TemplateData>, stack: seq<Frame>, trace: seq<Action>)

  /** How a run ends: it returned the given error value, or the fuel ran out first. */
  datatype Exit = Returned(err: Outcome) | FuelSpent

  datatype Env = Env(
    parseToken: string -> Result<string>,        // ParseToken(model, s)
    tokenBool: string -> Result<bool>,           // GetTokenBool(s, model)
    actionList: set<string>,                     // the names registered in ActionList
    handler: (Action, seq<Action>) -> Status,    // a registered handler's result after the given calls
    mapValuesToInput: map<string, string> -> Status,
    initFunc: Option<Status>,                    // None: no InitFunc; Some(e): it returns e
    cleanFunc: Option<Status>)

  /** The outcome of one pass through the dispatch loop: carry on from a state, or return. */
  datatype Signal = Continue(s: EngineState) | Stop(out: Outcome, s: EngineState)

  // ---------------------------------------------------------------------------
  // Pure helpers
  // ---------------------------------------------------------------------------

  /** SplitActionParams: resolve tokens, split on ';', lower-case the first field. */
  function SplitActionParams(env: Env, action: string): (r: Result<seq<string>>)
    ensures r.Failure? <==> env.parseToken(action).Failure?
    ensures r.Success? ==> |r.value| >= 1
  {
    match env.parseToken(action)
    case Failure(m) => Failure(m)
    case Success(resolved) =>
      var parts := Split(resolved);
      Success([ToLower(parts[0])] + parts[1..])
  }

  /** Job.GetKeyIndex: the first address whose key is `key`, or -1. */
  function GetKeyIndex(actions: seq<Action>, key: string): (r: int)
    ensures -1 <= r < |actions|
    ensures r == -1 <==> forall i :: 0 <= i < |actions| ==> actions[i].key != key
    ensures r >= 0 ==> actions[r].key == key && forall i :: 0 <= i < r ==> actions[i].key != key
  {
    if |actions| == 0 then -1
    else if actions[0].key == key then 0
    else
      var k := GetKeyIndex(actions[1..], key);
      if k == -1 then -1 else k + 1
  }

  function Advance(s: EngineState): EngineState
  {
    s.(index := s.index + 1)
  }

  // ---------------------------------------------------------------------------
  // RunAction
  // ---------------------------------------------------------------------------

  /** `goto;<label>` (also the `goto` of a Fail directive): set the pointer one before the label. */
  function Goto(job: Job, parts: seq<string>, s: EngineState): (Outcome, EngineState)
  {
    if |parts| < 2 then (Err("not enough args for goto"), s)
    else
      var target := GetKeyIndex(job.actions, parts[1]);
      if target == -1 then (Err("cannot find label " + parts[1]), s)
      else (Ok, s.(index := target - 1))
  }

  /** The argument check of the wait built-ins; the sleep itself is not modelled. */
  function Wait(parts: seq<string>, what: string, spacer: string): Outcome
  {
    if |parts| < 2 then Err("not enough args for " + what + spacer)
    else if Atoi(parts[1]).None? then Err("value should be an int for " + what + " " + parts[1])
    else Ok
  }

  /** The failure policy applied to the result `err` of a registered handler. */
  function FailPolicy(env: Env, job: Job, a: Action, err: Status, s: EngineState): (Outcome, EngineState)
  {
    if err == Ok then (Ok, s)
    else if err == EndWorkflow then (EndWorkflow, s)
    else if a.continueOnError then (Ok, s)
    else
      match SplitActionParams(env, a.fail)
      case Failure(m) => (Err(m), s)
      case Success(fail) =>
        if fail[0] == "end" || fail[0] == "" then (err, s)
        else if fail[0] == "goto" then Goto(job, fail, s)
        else (Ok, s)
  }

  /** The operators RunAction handles itself; any other operator goes to the registry. */
  const BuiltIns: set<string> := {"end", "error", "print", "goto", "wait", "wait-seconds", "wait-minutes"}

  /** RunAction: the built-ins, then the registered handler looked up by the raw action string. */
  function RunActionSpec(env: Env, job: Job, a: Action, s: EngineState): (r: (Outcome, EngineState))
  {
    match SplitActionParams(env, a.action)
    case Failure(m) => (Err(m), s)
    case Success(parts) =>
      var op := parts[0];
      if op !in BuiltIns then
        if a.action in env.actionList then
          FailPolicy(env, job, a, env.handler(a, s.trace), s.(trace := s.trace + [a]))
        else (Ok, s)
      else if op == "end" then (EndWorkflow, s)
      else if op == "error" then (if |parts| < 2 then Panic(IndexOutOfRange) else Err(parts[1]), s)
      else if op == "print" then (if |parts| < 2 then Panic(IndexOutOfRange) else Ok, s)
      else if op == "goto" then Goto(job, parts, s)
      else if op == "wait-seconds" || op == "wait" then (Wait(parts, "wait-seconds wait", " "), s)
      else (Wait(parts, "wait-minutes", ""), s)
  }

  // ---------------------------------------------------------------------------
  // executeJob's loop
  // ---------------------------------------------------------------------------

  /** `for;<var>;<from>;<to>`: open a loop frame recording this address. */
  function For(parts: seq<string>, s: EngineState): Signal
    requires s.index >= 0
  {
    if |parts| < 2 then Stop(Err("not enough args for loop"), s)
    else if |parts| < 3 then Stop(Panic(IndexOutOfRange), s)
    else match Atoi(parts[2])
      case None => Stop(Err("value should be an int for loop " + parts[2]), s)
      case Some(from) =>
        if |parts| < 4 then Stop(Panic(IndexOutOfRange), s)
        else match Atoi(parts[3])
          case None => Stop(Err("value should be an int for loop " + parts[3]), s)
          case Some(to) => Continue(Advance(s.(stack := Push(s.stack, parts[1], s.index, from, to))))
  }

  /** `next`: close the innermost loop, or rewind to the address its frame recorded. */
  function Next(s: EngineState): Signal
  {
    match Peek(s.stack)
    case Failure(m) => Stop(Err(m), s)
    case Success(frame) =>
      // Increment's underflow error cannot occur once Peek has succeeded.
      var (finished, after) := Increment(s.stack).value;
      if finished then
        var rest := match Pop(after) case Success((_, rest)) => rest case Failure(_) => after;
        Continue(Advance(s.(stack := rest)))
      else Continue(Advance(s.(stack := after, index := frame.index - 1)))
  }

  /** One pass of the dispatch loop at the current address, including the loop's own increment. */
  function Step(env: Env, job: Job, s: EngineState): (sig: Signal)
    requires 0 <= s.index < |job.actions|
    ensures sig.Continue? ==> sig.s.index >= 0
  {
    var a := job.actions[s.index];
    var s := s.(model := Some(TemplateData(Some(a))));
    match env.tokenBool(a.disabled)
    case Failure(m) => Stop(Err(m), s)
    case Success(disabled) =>
      if disabled then Continue(Advance(s))
      else
        match SplitActionParams(env, a.action)
        case Failure(m) => Stop(Err(m), s)
        case Success(parts) =>
          if parts[0] == "for" then For(parts, s)
          else if parts[0] == "next" then Next(s)
          else
            var (out, s') := RunActionSpec(env, job, a, s);
            if out == EndWorkflow then Stop(Ok, s')
            else if out != Ok then Stop(out, s')
            else Continue(Advance(s'))
  }

  /** The dispatch loop, for at most `fuel` passes. */
  function Run(env: Env, job: Job, s: EngineState, fuel: nat): (Exit, EngineState)
    requires s.index >= 0
    decreases fuel
  {
    if s.index >= |job.actions| then (Returned(Ok), s)
    else if fuel == 0 then (FuelSpent, s)
    else
      match Step(env, job, s)
      case Stop(out, s') => (Returned(out), s')
      case Continue(s') => Run(env, job, s', fuel - 1)
  }

  /** The loop returns at once past the last address, and stops when out of fuel. */
  lemma RunEdges(env: Env, job: Job, s: EngineState, fuel: nat)
    requires s.index >= 0
    ensures s.index >= |job.actions| ==> Run(env, job, s, fuel) == (Returned(Ok), s)
    ensures s.index < |job.actions| && fuel == 0 ==> Run(env, job, s, fuel) == (FuelSpent, s)
  {
  }

  /** One pass of the loop, unfolded. */
  lemma RunUnfold(env: Env, job: Job, s: EngineState, fuel: nat)
    requires 0 <= s.index < |job.actions| && fuel > 0
    ensures var sig := Step(env, job, s);
      Run(env, job, s, fuel) == if sig.Stop? then (Returned(sig.out), sig.s) else Run(env, job, sig.s, fuel - 1)
  {
  }

  // ---------------------------------------------------------------------------
  // executeJob, RunJob, RunSubWorkflow
  // ---------------------------------------------------------------------------

  function NotSubWorkflow(key: string): string
  {
    "this job " + key + " cannot be run directly you need to run via the sub-workflow action"
  }

  /** executeJob: find the job, vet a sub-workflow call, run the hooks, then the loop from address 0. */
  function ExecuteJobSpec(env: Env, manifest: map<string, Job>, s: EngineState, key: string,
                          subProcess: bool, inputs: map<string, string>, fuel: nat): (Exit, EngineState)
  {
    if key !in manifest then (Returned(Err("cannot find job " + key)), s.(job := None))
    else
      var job := manifest[key];
      var s := s.(job := Some(job));
      if subProcess && !job.isSubWorkflow then (Returned(Err(NotSubWorkflow(key))), s)
      else if subProcess && env.mapValuesToInput(inputs) != Ok then (Returned(env.mapValuesToInput(inputs)), s)
      else if env.initFunc.Some? && env.initFunc.value != Ok then (Returned(env.initFunc.value), s)
      else Run(env, job, s.(stack := [], model := Some(TemplateData(None)), index := 0), fuel)
  }

  /** The run state cleared after a run: no job, address 0, no model, empty loop stack. */
  function Reset(s: EngineState): EngineState
  {
    s.(job := None, index := 0, model := None, stack := [])
  }

  /** True when the run did not return normally, so nothing after executeJob happens. */
  predicate Unwound(r: Exit)
  {
    r.FuelSpent? || r.err.Panic?
  }

  function RunJobSpec(env: Env, manifest: map<string, Job>, s: EngineState, key: string, fuel: nat): (Exit, EngineState)
  {
    var (r, s') := ExecuteJobSpec(env, manifest, s, key, false, map[], fuel);
    if Unwound(r) then (r, s')
    else if env.cleanFunc.Some? && env.cleanFunc.value != Ok then (Returned(env.cleanFunc.value), s')
    else (r, Reset(s'))
  }

  function RunSubWorkflowSpec(env: Env, manifest: map<string, Job>, s: EngineState, key: string,
                              inputs: map<string, string>, fuel: nat): (Exit, EngineState)
  {
    var (r, s') := ExecuteJobSpec(env, manifest, s, key, true, inputs, fuel);
    if Unwound(r) then (r, s') else (r, Reset(s'))
  }
}

=== FILE: text.dfy ===
/**
 * The string helpers the engine leans on: splitting an action string on ';'
 * (Go's strings.Split with a one-character separator), lower-casing (ASCII),
 * decimal integer parsing as Go's strconv.Atoi does it on a 64-bit platform,
 * and decimal rendering as strconv.FormatInt(_, 10).
 */
module Text {
  import opened Results

  const Sep: char := ';'

  // ---------------------------------------------------------------------------
  // Split and Join
  // ---------------------------------------------------------------------------

  /** The fields of `s` between separators, like strings.Split(s, ";"). */
  function Split(s: string): (parts: seq<string>)
    ensures |parts| >= 1
    ensures forall i :: 0 <= i < |parts| ==> Sep !in parts[i]
  {
    if |s| == 0 then [""]
    else
      var rest := Split(s[1..]);
      if s[0] == Sep then [""] + rest
      else [[s[0]] + rest[0]] + rest[1..]
  }

  /** The fields glued back together with the separator, like strings.Join(parts, ";"). */
  function Join(parts: seq<string>): string
  {
    if |parts| == 0 then ""
    else if |parts| == 1 then parts[0]
    else parts[0] + [Sep] + Join(parts[1..])
  }

  lemma {:induction false} JoinConsHead(c: char, parts: seq<string>)
    requires |parts| >= 1
    ensures Join([[c] + parts[0]] + parts[1..]) == [c] + Join(parts)
  {
    var q := [[c] + parts[0]] + parts[1..];
    assert q[1..] == parts[1..];
  }

  /** Joining a list is its first field, then the separator and the rest when there is a rest. */
  lemma JoinFirst(x: string, tail: seq<string>)
    ensures Join([x] + tail) == x + (if |tail| == 0 then "" else [Sep] + Join(tail))
  {
    assert ([x] + tail)[1..] == tail;
  }

  /** Splitting and joining again gives back the original string. */
  lemma {:induction false} JoinSplit(s: string)
    ensures Join(Split(s)) == s
  {
    if |s| == 0 {
    } else {
      var rest := Split(s[1..]);
      JoinSplit(s[1..]);
      if s[0] == Sep {
        var q := [""] + rest;
        assert q[1..] == rest;
        assert Join(q) == "" + [Sep] + Join(rest);
        assert s == [s[0]] + s[1..];
      } else {
        JoinConsHead(s[0], rest);
        assert s == [s[0]] + s[1..];
      }
    }
  }

  /** Prepending a separator-free prefix extends the first field only. */
  lemma {:induction false} SplitPrefix(p: string, t: string)
    requires Sep !in p
    ensures Split(p + t) == [p + Split(t)[0]] + Split(t)[1..]
  {
    if |p| == 0 {
      assert p + t == t;
      var st := Split(t);
      assert p + st[0] == st[0];
      assert [st[0]] + st[1..] == st;
    } else {
      SplitPrefix(p[1..], t);
      assert (p + t)[1..] == p[1..] + t;
      assert (p + t)[0] == p[0];
      var rest := Split(p[1..] + t);
      assert rest[0] == p[1..] + Split(t)[0];
      assert [p[0]] + rest[0] == p + Split(t)[0];
      assert rest[1..] == Split(t)[1..];
    }
  }

  /** Joining separator-free fields and splitting again gives back the fields. */
  lemma {:induction false} SplitJoin(parts: seq<string>)
    requires |parts| >= 1
    requires forall i :: 0 <= i < |parts| ==> Sep !in parts[i]
    ensures Split(Join(parts)) == parts
  {
    if |parts| == 1 {
      SplitPrefix(parts[0], "");
      assert parts[0] + "" == parts[0];
    } else {
      SplitJoin(parts[1..]);
      var tail := [Sep] + Join(parts[1..]);
      SplitPrefix(parts[0], tail);
      assert parts[0] + [Sep] + Join(parts[1..]) == parts[0] + tail;
      assert tail[1..] == Join(parts[1..]);
      assert Split(tail) == [""] + Split(Join(parts[1..]));
      assert Split(tail)[0] == "" && Split(tail)[1..] == parts[1..];
      assert parts[0] + "" == parts[0];
      assert [parts[0]] + parts[1..] == parts;
    }
  }

  // ---------------------------------------------------------------------------
  // Lower-casing
  // ---------------------------------------------------------------------------

  predicate IsUpper(c: char) { 'A' <= c <= 'Z' }

  function LowerChar(c: char): (r: char)
    ensures !IsUpper(r)
    ensures !IsUpper(c) ==> r == c
    ensures IsUpper(c) ==> r as int == c as int + 32
  {
    if IsUpper(c) then (c as int + 32) as char else c
  }

  /** Lower-cases every ASCII capital, leaving every other character alone. */
  function ToLower(s: string): (r: string)
    ensures |r| == |s|
    ensures forall i :: 0 <= i < |s| ==> r[i] == LowerChar(s[i])
  {
    if |s| == 0 then "" else [LowerChar(s[0])] + ToLower(s[1..])
  }

  /** Lower-casing twice is lower-casing once, and it never introduces a separator. */
  lemma ToLowerIdempotent(s: string)
    ensures ToLower(ToLower(s)) == ToLower(s)
    ensures Sep in ToLower(s) <==> Sep in s
  {
    var r := ToLower(s);
    assert forall i :: 0 <= i < |s| ==> (r[i] == Sep <==> s[i] == Sep);
    if Sep in r {
      var i :| 0 <= i < |r| && r[i] == Sep;
      assert s[i] == Sep;
    }
    if Sep in s {
      var i :| 0 <= i < |s| && s[i] == Sep;
      assert r[i] == Sep;
    }
  }

  // ---------------------------------------------------------------------------
  // Decimal integers
  // ---------------------------------------------------------------------------

  /** The range of Go's `int` on a 64-bit platform. */
  const MinInt: int := -0x8000_0000_0000_0000
  const MaxInt: int := 0x7FFF_FFFF_FFFF_FFFF

  predicate IsDigit(c: char) { '0' <= c <= '9' }

  predicate AllDigits(s: string)
  {
    forall i :: 0 <= i < |s| ==> IsDigit(s[i])
  }

  /** The value of a string of decimal digits, most significant first. */
  function DigitsValue(s: string): nat
    requires AllDigits(s)
  {
    if |s| == 0 then 0
    else DigitsValue(s[..|s| - 1]) * 10 + (s[|s| - 1] as int - '0' as int)
  }

  /** The digits after an optional leading '+' or '-'. */
  function Unsigned(s: string): string
  {
    if |s| > 0 && (s[0] == '+' || s[0] == '-') then s[1..] else s
  }

  /**
   * strconv.Atoi: an optional sign, then one or more decimal digits and
   * nothing else; a value outside the 64-bit range is an error as well.
   */
  function Atoi(s: string): (r: Option<int>)
    ensures r.Some? ==> MinInt <= r.value <= MaxInt
    ensures r.Some? ==> |Unsigned(s)| >= 1 && AllDigits(Unsigned(s))
    ensures r.Some? && r.value < 0 ==> s[0] == '-'
  {
    var body := Unsigned(s);
    if |body| == 0 || !AllDigits(body) then None
    else
      var magnitude: int := DigitsValue(body);
      var v: int := if s[0] == '-' then -magnitude else magnitude;
      if MinInt <= v <= MaxInt then Some(v) else None
  }

  function DigitChar(d: nat): (c: char)
    requires d < 10
    ensures IsDigit(c)
  {
    ('0' as int + d) as char
  }

  /** The decimal digits of `n`, without leading zeros. */
  function NatDigits(n: nat): string
  {
    if n < 10 then [DigitChar(n)] else NatDigits(n / 10) + [DigitChar(n % 10)]
  }

  /** strconv.FormatInt(n, 10). */
  function FormatInt(n: int): string
  {
    if n < 0 then "-" + NatDigits(-n) else NatDigits(n)
  }

  lemma {:induction false} NatDigitsValue(n: nat)
    ensures |NatDigits(n)| >= 1 && AllDigits(NatDigits(n))
    ensures DigitsValue(NatDigits(n)) == n
  {
    if n >= 10 {
      NatDigitsValue(n / 10);
      var d := NatDigits(n / 10) + [DigitChar(n % 10)];
      assert d[..|d| - 1] == NatDigits(n / 10);
      assert forall i :: 0 <= i < |d| ==> IsDigit(d[i]);
    }
  }

  /** Parsing what FormatInt renders gives back the number, for every 64-bit value. */
  lemma AtoiFormatInt(n: int)
    requires MinInt <= n <= MaxInt
    ensures Atoi(FormatInt(n)) == Some(n)
  {
    var s := FormatInt(n);
    var m: nat := if n < 0 then -n else n;
    var d := NatDigits(m);
    NatDigitsValue(m);
    if n < 0 {
      assert s == "-" + d && s[0] == '-' && s[1..] == d;
    } else {
      assert s == d && IsDigit(s[0]);
    }
    assert Unsigned(s) == d;
    assert DigitsValue(Unsigned(s)) == m;
  }

  /** The absolute value, the digits Atoi reads after the sign. */
  function Magnitude(n: int): nat
  {
    if n < 0 then -n else n
  }

  /** `k` leading zeros. */
  function Zeros(k: nat): (r: string)
    ensures |r| == k && forall i :: 0 <= i < k ==> r[i] == '0'
  {
    seq(k, _ => '0')
  }

  lemma {:induction false} ZerosValue(k: nat)
    ensures AllDigits(Zeros(k)) && DigitsValue(Zeros(k)) == 0
  {
    if k > 0 {
      ZerosValue(k - 1);
      assert Zeros(k)[..k - 1] == Zeros(k - 1);
    }
  }

  /** Leading zeros do not change the value of a digit string. */
  lemma {:induction false} DigitsValueZeros(k: nat, d: string)
    requires AllDigits(d)
    ensures AllDigits(Zeros(k) + d) && DigitsValue(Zeros(k) + d) == DigitsValue(d)
    decreases |d|
  {
    var z := Zeros(k) + d;
    forall i | 0 <= i < |z|
      ensures IsDigit(z[i])
    {
      if i >= k {
        assert z[i] == d[i - k];
      }
    }
    if |d| == 0 {
      ZerosValue(k);
      assert z == Zeros(k);
    } else {
      var front := d[..|d| - 1];
      DigitsValueZeros(k, front);
      assert z[..|z| - 1] == Zeros(k) + front;
      assert z[|z| - 1] == d[|d| - 1];
    }
  }

  /** A digit string that does not start with '0' has a positive value. */
  lemma {:induction false} LeadingDigitPositive(d: string)
    requires |d| >= 1 && AllDigits(d) && d[0] != '0'
    ensures DigitsValue(d) >= 1
    decreases |d|
  {
    if |d| > 1 {
      LeadingDigitPositive(d[..|d| - 1]);
    }
  }

  /** A digit string without a redundant leading zero is the rendering of its own value. */
  lemma {:induction false} CanonicalDigits(d: string)
    requires |d| >= 1 && AllDigits(d) && (d[0] != '0' || |d| == 1)
    ensures NatDigits(DigitsValue(d)) == d
    decreases |d|
  {
    var c := d[|d| - 1];
    if |d| == 1 {
      assert d[..0] == "";
      assert DigitChar(c as int - '0' as int) == c;
    } else {
      var front := d[..|d| - 1];
      CanonicalDigits(front);
      LeadingDigitPositive(front);
      var v := DigitsValue(d);
      assert v / 10 == DigitsValue(front) && v % 10 == c as int - '0' as int;
      assert DigitChar(v % 10) == c;
      assert d == front + [c];
    }
  }

  /** Every digit string is some number of zeros followed by the rendering of its value. */
  lemma {:induction false} StripZeros(d: string) returns (k: nat)
    requires |d| >= 1 && AllDigits(d)
    ensures k < |d| && d == Zeros(k) + NatDigits(DigitsValue(d))
    decreases |d|, 1
  {
    if d[0] == '0' && |d| > 1 {
      k := StripLeadingZero(d);
    } else {
      k := 0;
      CanonicalDigits(d);
      assert Zeros(0) + d == d;
    }
  }

  /** The step of StripZeros: a leading '0' joins the zeros. */
  lemma {:induction false} StripLeadingZero(d: string) returns (k: nat)
    requires |d| > 1 && AllDigits(d) && d[0] == '0'
    ensures k < |d| && d == Zeros(k) + NatDigits(DigitsValue(d))
    decreases |d|, 0
  {
    var rest := d[1..];
    var k' := StripZeros(rest);
    var digits := NatDigits(DigitsValue(rest));
    assert d == Zeros(1) + rest;
    DigitsValueZeros(1, rest);
    assert DigitsValue(d) == DigitsValue(rest);
    k := k' + 1;
    assert Zeros(k) == Zeros(1) + Zeros(k');
    assert d == Zeros(1) + (Zeros(k') + digits);
  }

  /**
   * Atoi accepts every rendering of an in-range integer: an optional sign
   * ("-" only for a non-positive value, "+" only for a non-negative one), any
   * number of leading zeros, then the digits; and it gives back that integer.
   */
  lemma AtoiRendering(n: int, sign: string, k: nat)
    requires MinInt <= n <= MaxInt
    requires sign == "" || sign == "+" || sign == "-"
    requires n < 0 ==> sign == "-"
    requires n > 0 ==> sign != "-"
    ensures Atoi(sign + Zeros(k) + NatDigits(Magnitude(n))) == Some(n)
  {
    var m := Magnitude(n);
    var d := NatDigits(m);
    NatDigitsValue(m);
    DigitsValueZeros(k, d);
    var u := Zeros(k) + d;
    assert sign + Zeros(k) + d == sign + u;
    assert IsDigit(u[0]);
    UnsignedAfterSign(sign, u);
  }

  /** Unsigned strips exactly the sign written before a digit string. */
  lemma UnsignedAfterSign(sign: string, u: string)
    requires sign == "" || sign == "+" || sign == "-"
    requires |u| >= 1 && IsDigit(u[0])
    ensures Unsigned(sign + u) == u
    ensures (sign + u)[0] == '-' <==> sign == "-"
  {
    var s := sign + u;
    if sign == "" {
      assert s == u;
    } else {
      assert s[0] == sign[0] && s[1..] == u;
    }
  }

  /**
   * Conversely, every string Atoi accepts is such a rendering of the value it
   * returns: an optional sign, matching the value's sign, then some leading
   * zeros, then the value's digits.
   */
  lemma AtoiOnlyRenderings(s: string)
    requires Atoi(s).Some?
    ensures var v := Atoi(s).value;
      var u := Unsigned(s);
      && (s == u || s == "+" + u || s == "-" + u)
      && (v < 0 ==> s == "-" + u)
      && (v > 0 ==> s != "-" + u)
      && exists k: nat :: k < |u| && u == Zeros(k) + NatDigits(Magnitude(v))
  {
    var v := Atoi(s).value;
    var u := Unsigned(s);
    if |s| > 0 && (s[0] == '+' || s[0] == '-') {
      assert s == [s[0]] + u;
    }
    var k := StripZeros(u);
    assert Magnitude(v) == DigitsValue(u);
  }
}

=== FILE: workflow_run.dfy ===
/**
 * The engine object of workflow/workflow_run.go: its run-state fields and the
 * methods that update them in place. Each method is proved to leave exactly the
 * state, and return exactly the result, that its specification function in
 * module Semantics prescribes.
 */
module WorkflowRun {
  import opened Results
  import opened Text
  import opened LoopStack
  import opened Semantics

  class Workflow {
    const manifest: map<string, Job>
    const env: Env

    var currentJob: Option<Job>
    var currentIndex: int
    var model: Option<TemplateData>
    var stack: seq<Frame>
    var trace: seq<Action>

    /** The run-state fields as one value. */
    function State(): EngineState
      reads this
    {
      EngineState(currentJob, currentIndex, model, stack, trace)
    }

    constructor(manifest: map<string, Job>, env: Env)
      ensures this.manifest == manifest && this.env == env
      ensures State() == EngineState(None, 0, None, [], [])
    {
      this.manifest := manifest;
      this.env := env;
      currentJob := None;
      currentIndex := 0;
      model := None;
      stack := [];
      trace := [];
    }

    /** The shared tail of the `goto` built-in and the Fail directive's `goto`. */
    method Goto(parts: seq<string>) returns (err: Outcome)
      requires currentJob.Some?
      modifies this`currentIndex
      ensures (err, State()) == Semantics.Goto(currentJob.value, parts, old(State()))
    {
      if |parts| < 2 {
        return Err("not enough args for goto");
      }
      var target := GetKeyIndex(currentJob.value.actions, parts[1]);
      if target == -1 {
        return Err("cannot find label " + parts[1]);
      }
      currentIndex := target - 1;
      err := Ok;
    }

    method RunAction(a: Action) returns (err: Outcome)
      requires currentJob.Some?
      modifies this`currentIndex, this`trace
      ensures (err, State()) == RunActionSpec(env, currentJob.value, a, old(State()))
    {
      var split := SplitActionParams(env, a.action);
      if split.Failure? {
        return Err(split.msg);
      }
      var parts := split.value;
      var op := parts[0];
      if op == "end" {
        err := EndWorkflow;
      } else if op == "error" {
        err := if |parts| < 2 then Panic(IndexOutOfRange) else Err(parts[1]);
      } else if op == "print" {
        err := if |parts| < 2 then Panic(IndexOutOfRange) else Ok;
      } else if op == "goto" {
        err := Goto(parts);
      } else if op == "wait-seconds" || op == "wait" {
        err := Wait(parts, "wait-seconds wait", " ");
      } else if op == "wait-minutes" {
        err := Wait(parts, "wait-minutes", "");
      } else {
        err := Ok;
        if a.action in env.actionList {
          var result := env.handler(a, trace);
          trace := trace + [a];
          if result == EndWorkflow {
            err := EndWorkflow;
          } else if result != Ok && !a.continueOnError {
            var fail := SplitActionParams(env, a.fail);
            if fail.Failure? {
              err := Err(fail.msg);
            } else if fail.value[0] == "end" || fail.value[0] == "" {
              err := result;
            } else if fail.value[0] == "goto" {
              err := Goto(fail.value);
            }
          }
        }
      }
    }

    /** The body of the dispatch loop for the action at the current address. */
    method Dispatch(job: Job) returns (sig: Signal)
      requires currentJob == Some(job) && 0 <= currentIndex < |job.actions|
      modifies this`currentIndex, this`trace, this`model, this`stack
      ensures sig == Step(env, job, old(State())) && State() == sig.s
    {
      var a := job.actions[currentIndex];
      model := Some(TemplateData(Some(a)));
      var disabled := env.tokenBool(a.disabled);
      if disabled.Failure? {
        return Stop(Err(disabled.msg), State());
      }
      if disabled.value {
        currentIndex := currentIndex + 1;
        return Continue(State());
      }
      var split := SplitActionParams(env, a.action);
      if split.Failure? {
        return Stop(Err(split.msg), State());
      }
      var parts := split.value;
      if parts[0] == "for" {
        if |parts| < 2 {
          return Stop(Err("not enough args for loop"), State());
        }
        if |parts| < 3 {
          return Stop(Panic(IndexOutOfRange), State());
        }
        var from := Atoi(parts[2]);
        if from.None? {
          return Stop(Err("value should be an int for loop " + parts[2]), State());
        }
        if |parts| < 4 {
          return Stop(Panic(IndexOutOfRange), State());
        }
        var to := Atoi(parts[3]);
        if to.None? {
          return Stop(Err("value should be an int for loop " + parts[3]), State());
        }
        stack := Push(stack, parts[1], currentIndex, from.value, to.value);
      } else if parts[0] == "next" {
        var top := Peek(stack);
        if top.Failure? {
          return Stop(Err(top.msg), State());
        }
        // Increment's underflow error cannot occur once Peek has succeeded.
        var (finished, after) := Increment(stack).value;
        stack := after;
        if finished {
          var popped := Pop(stack);
          if popped.Success? {
            stack := popped.value.1;
          }
        } else {
          currentIndex := top.value.index - 1;
        }
      } else {
        var err := RunAction(a);
        if err == EndWorkflow {
          return Stop(Ok, State());
        }
        if err != Ok {
          return Stop(err, State());
        }
      }
      currentIndex := currentIndex + 1;
      sig := Continue(State());
    }

    /** executeJob, for at most `fuel` passes of its loop. */
    method ExecuteJob(key: string, subProcess: bool, inputs: map<string, string>, fuel: nat) returns (r: Exit)
      modifies this
      ensures (r, State()) == ExecuteJobSpec(env, manifest, old(State()), key, subProcess, inputs, fuel)
    {
      if key !in manifest {
        currentJob := None;
        return Returned(Err("cannot find job " + key));
      }
      var job := manifest[key];
      currentJob := Some(job);
      if subProcess {
        if !(subProcess && job.isSubWorkflow) {
          return Returned(Err(NotSubWorkflow(key)));
        }
        var err := env.mapValuesToInput(inputs);
        if err != Ok {
          return Returned(err);
        }
      }
      if env.initFunc.Some? {
        var err := env.initFunc.value;
        if err != Ok {
          return Returned(err);
        }
      }
      stack := [];
      model := Some(TemplateData(None));
      currentIndex := 0;
      r := RunActions(job, fuel);
    }

    /** The `for m.current_index` loop of executeJob, for at most `fuel` passes. */
    method RunActions(job: Job, fuel: nat) returns (r: Exit)
      requires currentJob == Some(job) && currentIndex >= 0
      modifies this`currentIndex, this`trace, this`model, this`stack
      ensures (r, State()) == Run(env, job, old(State()), fuel)
    {
      var count := |job.actions|;
      var budget := fuel;
      while currentIndex < count
        invariant currentJob == Some(job) && currentIndex >= 0
        invariant Run(env, job, State(), budget) == Run(env, job, old(State()), fuel)
        decreases budget
      {
        if budget == 0 {
          RunEdges(env, job, State(), budget);
          return FuelSpent;
        }
        ghost var before := State();
        var sig := Dispatch(job);
        RunUnfold(env, job, before, budget);
        budget := budget - 1;
        if sig.Stop? {
          return Returned(sig.out);
        }
        assert Run(env, job, State(), budget) == Run(env, job, before, budget + 1);
      }
      RunEdges(env, job, State(), budget);
      r := Returned(Ok);
    }

    method RunJob(key: string, fuel: nat) returns (r: Exit)
      modifies this
      ensures (r, State()) == RunJobSpec(env, manifest, old(State()), key, fuel)
    {
      r := ExecuteJob(key, false, map[], fuel);
      if Unwound(r) {
        return;
      }
      if env.cleanFunc.Some? {
        var err := env.cleanFunc.value;
        if err != Ok {
          return Returned(err);
        }
      }
      currentJob := None;
      currentIndex := 0;
      model := None;
      stack := [];
    }

    method RunSubWorkflow(key: string, inputs: map<string, string>, fuel: nat) returns (r: Exit)
      modifies this
      ensures (r, State()) == RunSubWorkflowSpec(env, manifest, old(State()), key, inputs, fuel)
    {
      r := ExecuteJob(key, true, inputs, fuel);
      if Unwound(r) {
        return;
      }
      currentJob := None;
      currentIndex := 0;
      model := None;
      stack := [];
    }
  }
}
